=== FILE: README.md ===
# CTkButton: a Dafny model

This project models the core of `CTkButton` from CustomTkinter
(`customtkinter/customtkinter_button.py`). `CTkButton` is a button widget
drawn on a Tk canvas, with rounded corners, an optional border, hover
colours, light/dark appearance modes and an optional text label and image
label. The Tk calls are replaced by plain values. The canvas is a record of
shapes, each with a kind, a bounding box and a fill colour. A label is a
record of its text or image, its colours and its last `grid` placement. The
button is an immutable `ButtonState`. Every method of the widget is a pure
function from the button before to the button after.

Modules:

- `Wrappers` (wrappers.dfy): `Option` and `Change`. A `Change` is a keyword
  argument of `configure` that is either passed or not.
- `Colors` (colors.dfy): colour specifications and appearance modes.
  `Palette` holds the colour manager's `single_color` and
  `darken_hex_color`, which stay uninterpreted. The file also models
  `str.lower` as far as the mode strings need it.
- `Geometry` (geometry.dfy): corner-radius clamping, the inner radius, and
  the border and fill shapes of one `draw`.
- `Layout` (layout.dfy): where `draw` grids the labels, by `compound`.
- `Button` (button.dfy): the configuration, `__init__`, `draw`,
  `update_dimensions`, `set_text`, `set_image`, `on_enter`, `on_leave`,
  `clicked`, `set_state`, `set_appearance_mode` and `configure`.
- `Events` (events.dfy): the event bindings as one `Step` function. It also
  holds the invariant `WellFormed`, which every event preserves.
- `Behaviour` (behaviour.dfy): properties that relate several operations,
  and the concrete scenarios.

Behaviour of the code that a reader might not expect:

- The corner-radius clamp checks the height first and applies only one
  halving. So `2*r <= height` always holds, but `2*r <= min(width, height)`
  does not: width 10, height 40 and radius 30 give radius 20
  (`Geometry.ClampMayExceedWidth`).
- Only `set_state` turns hovering off. A button constructed with
  `state="disabled"` is drawn darkened but still shows the hover colour on
  enter (`Behaviour.ConstructedDisabledStillHovers`).
- The canvas gets its Enter/Leave bindings only if `hover` was on at
  construction. A later `set_state("normal")` turns hovering on, but
  entering the canvas still does nothing
  (`Behaviour.CanvasHoverFixedAtConstruction`).
- `draw` never removes a label. A text label created earlier stays when the
  text later becomes empty. That label is regridded but not recoloured, so
  it keeps its old background (see `Button.Draw`).
- With a border and rounded corners, `draw` raises partway through (see
  "## Findings"). The rest of the model uses the corrected border layer.

## Model

| member | source | states |
|---|---|---|
| `Geometry.ClampCornerRadius` | customtkinter/customtkinter_button.py:46-51 | a request more than half the height becomes half the height; otherwise a request more than half the width becomes half the width; otherwise it is kept. So the radius never exceeds the request, twice it fits the height, it equals the request exactly when twice the request fits both sides, and twice it fits the width when the request fits the height or the button is at least as wide as tall |
| `Geometry.ClampMayExceedWidth` | customtkinter/customtkinter_button.py:46-51 | width 10, height 40 and radius 30 give radius 20, whose double exceeds the width |
| `Geometry.ClampIdempotentWhenWidthRespected` | customtkinter/customtkinter_button.py:46-51 | clamping again changes nothing once the width is respected; clamping (30, 10, 40) twice gives 5, so the clamp is not idempotent in general |
| `Geometry.InnerCornerRadius` | customtkinter/customtkinter_button.py:55-58 | the inner radius is max(corner radius minus border width, 0); it is 0 when the border is wider than the radius and at most the radius when both are non-negative |
| `Geometry.BorderShapes` | customtkinter/customtkinter_button.py:131-163 | the corrected border layer: none without a border; with rounded corners four ovals then two rectangles, otherwise two rectangles; all created unfilled |
| `Geometry.BorderDrawAsWritten` | customtkinter/customtkinter_button.py:131-163 | the border step as written raises exactly when there is a border and the corners are rounded, after creating three ovals at (0, 0, 0, 0); otherwise it leaves the corrected layer |
| `Geometry.BorderedRoundedDrawRaises` | customtkinter/customtkinter_button.py:132-142 | the default 120x32 button with radius 8 and border width 2 raises after three ovals, where the intended top-left oval is the box (0, 0, 16, 16) |
| `Geometry.BorderShapesPlacement` | customtkinter/customtkinter_button.py:139-163 | each corrected border oval is a square of side twice the corner radius in its own corner of the button; the rectangles are [0, w]x[cr, h-cr] and [cr, w-cr]x[0, h] |
| `Geometry.BorderRingAroundFill` | customtkinter/customtkinter_button.py:139-182 | with a border no wider than the corner radius, each fill oval is its corner's border oval shrunk by the border width on every side, so the border is a ring of even width at the corners |
| `Geometry.FillShapes` | customtkinter/customtkinter_button.py:165-191 | six parts (four ovals, then two rectangles) with rounded corners, otherwise two rectangles; all created unfilled |
| `Geometry.Recolor` | customtkinter/customtkinter_button.py:193-204 | recolouring keeps every part's kind and box, in order, and gives each the one colour |
| `Geometry.RecolorTwice` | customtkinter/customtkinter_button.py:339-365 | recolouring twice is recolouring with the second colour, so the last of `on_enter` and `on_leave` decides the fill |
| `Geometry.FillShapesSymmetricX` | customtkinter/customtkinter_button.py:167-191 | the fill layer maps onto itself under x to width minus x: ovals 0 and 1 and ovals 2 and 3 swap, the rectangles stay |
| `Geometry.FillShapesSymmetricY` | customtkinter/customtkinter_button.py:167-191 | the fill layer maps onto itself under y to height minus y: ovals 0 and 2 and ovals 1 and 3 swap, the rectangles stay |
| `Geometry.FillShapesPlacement` | customtkinter/customtkinter_button.py:167-191 | each fill oval is a square of side twice the inner radius at a corner of the area inside the border; the rectangles are [bw+ir, w-bw-ir]x[bw, h-bw] and [bw, w-bw]x[bw+ir, h-bw-ir] |
| `Geometry.FillInsideBorder` | customtkinter/customtkinter_button.py:165-191 | when the radius and border fit the button, every fill part lies inside the area bounded by the border |
| `Layout.Arrange` | customtkinter/customtkinter_button.py:241-262 | a lone image or lone text spans the whole 2x2 grid with no sticky side, so it is centred (text padded by the radius); two labels are placed only for left/right/top/bottom; then they share no cell, each sticks toward the other, and the image is left of, right of, above or below the text as the compound says; left/right place both labels in row 0 spanning both rows, top/bottom both in column 0 spanning both columns |
| `Layout.ArrangeMirrored` | customtkinter/customtkinter_button.py:251-262 | the "right" layout is the column mirror of "left" and "bottom" the row mirror of "top" |
| `Colors.Lower` | customtkinter/customtkinter_button.py:374-376 | lowering keeps the length and lowers each character on its own |
| `Colors.ParseMode` | customtkinter/customtkinter_button.py:373-377 | a string selects dark exactly when it is "dark" ignoring case, light exactly when it is "light" ignoring case, and nothing otherwise |
| `Colors.KelvinSignSelectsDark` | customtkinter/customtkinter_button.py:374-375 | "DAR" followed by the KELVIN SIGN selects dark, "Light" selects light, "system" selects nothing |
| `Button.Defaults` | customtkinter/customtkinter_button.py:12-29 | the constructor's defaults: 120x32, radius 8, no border, text "CTkButton", hovering on, compound left, state normal, with the colour manager's main, main-hover and text colours as foreground, hover and text colour |
| `Button.PaintedCanvas` | customtkinter/customtkinter_button.py:125-204 | a drawn canvas has the background colour, the border layer in the border colour and the fill layer in the given colour, with the outlines and part counts of the geometry |
| `Button.RepaintCanvas` | customtkinter/customtkinter_button.py:193-200 | repainting the fill layer of a drawn canvas gives the canvas drawn with the new fill colour |
| `Button.FillColor` | customtkinter/customtkinter_button.py:195-200 | the fill colour of a draw is the foreground colour, darkened exactly when the state is "disabled"; the labels take the same colour (:219-222, :236-239) |
| `Button.RenderCanvas` | customtkinter/customtkinter_button.py:125-204 | the canvas of a draw depends only on the look (nothing of the old canvas survives) and its fill layer is in the drawn colour, darkened when disabled |
| `Button.Draw` | customtkinter/customtkinter_button.py:125-262 | the configuration is untouched; a text label is made iff there is non-empty text, an image label iff there is an image, each in the drawn fill colour; an earlier label otherwise stays as it was apart from its grid; labels are gridded as `Arrange` says, and a label `Arrange` does not place keeps its earlier placement, or none if it was just created |
| `Button.InitConfig` | customtkinter/customtkinter_button.py:37-76 | background falls back to the master's colour, foreground to the background, hover to the foreground; the radius is clamped and the inner radius derived; hovering and the canvas bindings follow the hover argument even when disabled |
| `Button.Init` | customtkinter/customtkinter_button.py:30-103 | a new button has the derived configuration, a freshly drawn canvas, a text label iff the text is non-empty and an image label iff an image is given; it is what `Draw` makes of a button with that configuration and no labels, so the labels' text, colours and grid are those `Draw` states |
| `Button.UpdateDimensions` | customtkinter/customtkinter_button.py:112-117 | a resize takes the new width and height and redraws without clamping the radius again |
| `Button.SetText` | customtkinter/customtkinter_button.py:325-330 | the text is always stored; an existing label shows it, except that `None` leaves the label as it was; without a label one diagnostic is logged; nothing is redrawn |
| `Button.SetImage` | customtkinter/customtkinter_button.py:332-337 | with an image label the image is stored and shown, except that `None` leaves the label as it was; without one only a diagnostic is logged and the image is not stored |
| `Button.Paint` | customtkinter/customtkinter_button.py:342-351 | repainting gives every fill part the one colour, keeping its kind and box, gives each existing label that background, and changes nothing else (the same loop runs in `on_leave`, :356-365) |
| `Button.OnEnter` | customtkinter/customtkinter_button.py:339-351 | with hovering on, the fill layer and the label backgrounds take the hover colour and nothing else changes; with hovering off nothing changes |
| `Button.OnLeave` | customtkinter/customtkinter_button.py:353-365 | with hovering on, the fill layer and the label backgrounds take the plain foreground colour; with hovering off nothing changes |
| `Button.Clicked` | customtkinter/customtkinter_button.py:367-371 | with a command and not disabled, the command runs once and the button repaints as on leaving; otherwise nothing changes |
| `Button.SetState` | customtkinter/customtkinter_button.py:310-323 | the state is stored; disabled turns hovering off, normal turns it on, other states keep it; the button is redrawn |
| `Button.SetAppearanceMode` | customtkinter/customtkinter_button.py:373-379 | the mode becomes dark or light when the string names it ignoring case and stays otherwise; the button is redrawn either way and nothing else changes |
| `Button.ConfigureText` | customtkinter/customtkinter_button.py:270-272 | a passed `text` goes through `set_text`: the text is stored, an existing text label shows a passed string (`None` leaves it as it was), the image label and canvas are untouched, and a diagnostic is added exactly when there is no text label |
| `Button.ConfigureState` | customtkinter/customtkinter_button.py:274-276 | a passed `state` goes through `set_state`: state and hover change by its rules, a freshly drawn canvas results, and each label exists afterwards iff it existed or the redraw created it |
| `Button.ConfigureImage` | customtkinter/customtkinter_button.py:278-280 | a passed `image` goes through `set_image`: it is stored only when an image label exists, and that label shows a passed image (`None` leaves it as it was); otherwise a diagnostic is added; the look is untouched |
| `Button.WithColors` | customtkinter/customtkinter_button.py:282-303 | the passed colours are stored (`bg_color=None` takes the master's colour) and no other field changes |
| `Button.Configure` | customtkinter/customtkinter_button.py:267-308 | every passed text, state and colour option is stored and every option not passed keeps its value (`image` is covered by `Button.ConfigureStoresImage`); after the setters only the four colours change, so border colour, compound and the rest stay; the labels and diagnostics are those of `ConfigureSetters`, redrawn when a colour is passed; a colour or state option leaves the canvas drawn from the final configuration, otherwise the canvas is untouched; no options change nothing |
| `Button.ConfigureSetters` | customtkinter/customtkinter_button.py:270-280 | text, then state, then image: text and state are stored (not passed: kept), hover follows `set_state`, the image is stored exactly when an image label exists by then, one diagnostic per option whose label is missing, the canvas is drawn anew when the state is passed and untouched otherwise, and each label exists iff it existed or the state's redraw created it; without `state`, an existing text label shows a passed text and an existing image label a passed image, and labels are otherwise untouched; with `state`, the labels are those of `set_state`'s redraw, the image label then showing a passed image |
| `Button.ConfigureStoresImage` | customtkinter/customtkinter_button.py:274-280 | a passed `image` is stored exactly when an image label exists when `set_image` runs: one the button had, or one the redraw of a passed `state` created; otherwise the stored image stays |
| `Button.ConfigureKeepsGeometry` | customtkinter/customtkinter_button.py:267-308 | `configure` never changes size, radii, border, mode, compound, command or bindings |
| `Events.Step` | customtkinter/customtkinter_button.py:89-102 | each event runs its handler: a resize `update_dimensions`, a mode change `set_appearance_mode`, each call its method; enter/leave act only on a target with the hover binding, clicks only on one with the click binding |
| `Events.HoverBound` | customtkinter/customtkinter_button.py:89-91 | a target with the hover binding also has the click binding; a label has both exactly when it exists (:210-213, :230-233), the canvas has the hover binding exactly when hovering was on at construction |
| `Events.ClickBound` | customtkinter/customtkinter_button.py:92-93 | the canvas always takes clicks; a target without the click binding is a label not yet created (:212-213, :232-233) |
| `Events.StepKeepsTargetBindings` | customtkinter/customtkinter_button.py:89-93 | no event removes a hover or click binding from any target: labels are never destroyed and the canvas bindings stay as construction left them |
| `Events.StepKeepsBindings` | customtkinter/customtkinter_button.py:89-102 | only a click can run the command, at most once per event, and no event changes the canvas bindings or whether there is a command |
| `Events.InitWellFormed` | customtkinter/customtkinter_button.py:30-103 | a new button is well formed |
| `Events.WellFormedCanvas` | customtkinter/customtkinter_button.py:125-204 | a well-formed button shows the outlines its size and radii give, the border in the border colour and a single fill colour |
| `Events.StepPreservesWellFormed` | customtkinter/customtkinter_button.py:112-379 | every event keeps a well-formed button well formed |
| `Behaviour.DrawIdempotent` | customtkinter/customtkinter_button.py:125-262 | drawing twice gives what drawing once gives |
| `Behaviour.LeaveOverwritesEnter` | customtkinter/customtkinter_button.py:339-365 | leaving after entering equals leaving alone |
| `Behaviour.EnterLeaveRestoresDraw` | customtkinter/customtkinter_button.py:339-365 | on a freshly drawn enabled button whose labels were all created by that draw, entering then leaving restores the drawn look (a label kept from an earlier draw may keep another background) |
| `Behaviour.DisabledIgnoresEnter` | customtkinter/customtkinter_button.py:310-323 | after disabling, the fill is the darkened foreground and entering changes nothing |
| `Behaviour.DisabledSurvivesModeSwitch` | customtkinter/customtkinter_button.py:373-379 | a mode switch after disabling keeps the button disabled, darkened in the new mode and deaf to enter |
| `Behaviour.ConstructedDisabledStillHovers` | customtkinter/customtkinter_button.py:73-74 | a button constructed disabled with hovering on is drawn darkened but shows the hover colour on enter |
| `Behaviour.EnterWithoutCanvasBinding` | customtkinter/customtkinter_button.py:89-91 | with hovering on but no canvas binding, entering the canvas changes nothing, while entering an existing text label paints the hover colour |
| `Behaviour.CanvasHoverFixedAtConstruction` | customtkinter/customtkinter_button.py:89-91 | without the canvas binding, `set_state("normal")` turns hovering on, yet entering the canvas changes nothing while entering the text label recolours |
| `Behaviour.EnterClickLeave` | customtkinter/customtkinter_button.py:339-371 | enter, click and leave on an enabled hovering button with a command run it once and end in the plain foreground colour |
| `Behaviour.ClickRunsCommandOnce` | customtkinter/customtkinter_button.py:367-371 | a click runs the command exactly when it lands on a bound target of a clickable button, and otherwise changes nothing |
| `Behaviour.TextKeptImageDropped` | customtkinter/customtkinter_button.py:325-337 | text set without a label appears at the next draw; an image set without a label is dropped and never appears |
| `Behaviour.ResizeSkipsClamp` | customtkinter/customtkinter_button.py:112-117 | a resize below twice the radius leaves a radius too large for the new height |
| `Behaviour.TextOnlyScenario` | customtkinter/customtkinter_button.py:206-247 | the default button with text "OK" has one text label over the whole grid padded by 8, six fill parts in the foreground colour and no border |
| `Behaviour.CompoundLeftScenario` | customtkinter/customtkinter_button.py:250-253 | the default button with an image places the image at column 0 sticky "e" and the text at column 1 sticky "w" |

## Left out

- Tk itself: canvases, labels, `grid`, `bind` and `configure` are modelled as records, placements and flags, not as widgets.
- `single_color` and `darken_hex_color`: their source is not part of this model. They are the uninterpreted functions of a `Palette` argument, so no claim depends on how colours resolve or darken.
- `AppearanceModeTracker` (lines 32-33): the initial mode is an argument of `Init` and mode changes arrive as `AppearanceChange` events. The subscription itself is not modelled.
- `detect_color_of_master` (lines 119-123): the master's colour is an argument of `Init` and `Configure`.
- `configure_basic_grid`, the canvas's own grid call and its pixel size (lines 35, 83-87, 105-110, 114): these only set up Tk. The canvas size always equals the button's width and height.
- Font selection and macOS cursor changes (lines 62-70, 80-81, 315-321): platform plumbing.
- `super().configure` for unrecognised options (line 305), including width and height, which reach the model only through `Resize` events.
- `config` (lines 264-265): it only forwards to `configure`.
- Standard-error output (lines 330, 337): recorded as `Diagnostic` entries instead of text.
- The command's own effect: `Clicked` only counts invocations. A command that reconfigures the button is not modelled.
- The state after `draw` raises: `Geometry.BorderDrawAsWritten` records that the border step raises for a bordered, rounded button, so `__init__` cannot finish for such a button. Button, Events and Behaviour use the corrected `Geometry.BorderShapes`, and the partly drawn canvas a raising redraw would leave behind is not modelled.
- Old label widgets: `draw` creates a new label without destroying the previous one. The model keeps only the latest label of each kind.
- Tk `grid` option merging: a placement records the latest `grid` call, with Tk's defaults for options the call omits. Options left over from an earlier call on the same label are not modelled.
- Identity tests: `hover is True` is modelled as a boolean, and `state is not DISABLED` as string inequality.
- `Colors.Lower`: lowers only ASCII capitals and the KELVIN SIGN, not every character Python lowers. Python lowers no other character to one of the letters of "dark" or "light", so `ParseMode` decides exactly as `mode_string.lower()` does.
- Floating point: coordinates are exact reals, and `height / 2` is exact.

## Findings

| source | as written | input that shows it | evidently intended | confidence | as-written member | corrected member |
|---|---|---|---|---|---|---|
| customtkinter/customtkinter_button.py:133-154 | with a border and rounded corners, three ovals are created at (0, 0, 0, 0). Each `itemconfig` call then passes a bare coordinate tuple as the options argument. tkinter's option merging takes each element for a mapping of options; the integer 0 is not one, so the call raises and `draw` stops | border_width=2 with the default corner_radius=8 (any border width > 0 with corner radius > 0) | four border ovals, one in each corner box of side twice the corner radius, each concentric with the fill oval of its corner | not executed; medium (the raise follows from tkinter's option handling, which is not part of this model) | `Geometry.BorderDrawAsWritten`, `Geometry.BorderedRoundedDrawRaises` | `Geometry.BorderShapes`, `Geometry.BorderShapesPlacement`, `Geometry.BorderRingAroundFill` |

=== FILE: behaviour.dfy ===
/** Properties of the button that relate several operations. */
module Behaviour {
  import opened Wrappers
  import opened Colors
  import opened Geometry
  import opened Layout
  import opened Button
  import opened Events

  /** Drawing again without a change in between changes nothing. */
  lemma DrawIdempotent(p: Palette, b: ButtonState)
    ensures Draw(p, Draw(p, b)) == Draw(p, b)
  {
  }

  /** Leaving after entering is the same as leaving: entering leaves no
      trace that leaving does not overwrite. */
  lemma LeaveOverwritesEnter(p: Palette, b: ButtonState)
    ensures OnLeave(p, OnEnter(p, b)) == OnLeave(p, b)
  {
  }

  /** On a freshly drawn, enabled button whose labels were all created by
      that draw, entering and then leaving restores the drawn look. */
  lemma EnterLeaveRestoresDraw(p: Palette, b: ButtonState)
    requires b.cfg.state != DISABLED
    requires ShowsText(b.cfg.text) || b.textLabel.None?
    requires b.cfg.image.Some? || b.imageLabel.None?
    ensures OnLeave(p, OnEnter(p, Draw(p, b))) == Draw(p, b)
  {
    var d := Draw(p, b);
    LeaveOverwritesEnter(p, d);
    if d.cfg.hover {
      var k := LookOf(d.cfg);
      RepaintCanvas(p, k, FillColor(p, k), p.resolve(d.cfg.fgColor, d.cfg.mode));
    }
  }

  /** After `set_state("disabled")` the fill is the darkened foreground and
      entering changes nothing. */
  lemma DisabledIgnoresEnter(p: Palette, b: ButtonState)
    ensures var d := SetState(p, b, DISABLED);
      && FilledWith(d.canvas.fillParts, p.darken(p.resolve(d.cfg.fgColor, d.cfg.mode)))
      && OnEnter(p, d) == d
  {
  }

  /** Switching the appearance mode of a disabled button keeps it darkened
      (in the new mode's colour) and keeps hovering off. */
  lemma DisabledSurvivesModeSwitch(p: Palette, b: ButtonState, modeString: string)
    ensures var d := SetAppearanceMode(p, SetState(p, b, DISABLED), modeString);
      && d.cfg.state == DISABLED && !d.cfg.hover
      && FilledWith(d.canvas.fillParts, p.darken(p.resolve(d.cfg.fgColor, d.cfg.mode)))
      && OnEnter(p, d) == d
  {
  }

  /** A button constructed disabled keeps hovering on: it is drawn darkened,
      but entering shows the hover colour. */
  lemma ConstructedDisabledStillHovers(p: Palette, o: Options, mode: Mode, masterColor: ColorSpec)
    requires o.state == DISABLED && o.hover
    ensures var b := Init(p, o, mode, masterColor);
      && FilledWith(b.canvas.fillParts, p.darken(p.resolve(b.cfg.fgColor, mode)))
      && FilledWith(OnEnter(p, b).canvas.fillParts, p.resolve(b.cfg.hoverColor, mode))
  {
  }

  /** Entering the canvas does nothing when the canvas has no Enter
      binding, even with hovering on; entering an existing text label
      shows the hover colour. */
  lemma EnterWithoutCanvasBinding(p: Palette, masterColor: ColorSpec, b: ButtonState)
    requires b.cfg.hover && !b.cfg.canvasHoverBound
    ensures Step(p, masterColor, b, PointerEnter(CanvasArea)) == b
    ensures b.textLabel.Some? ==>
      Step(p, masterColor, b, PointerEnter(TextArea)) == Paint(b, p.resolve(b.cfg.hoverColor, b.cfg.mode))
  {
  }

  /** A button constructed without hovering never gets the canvas Enter
      binding (`Init` sets `canvasHoverBound` to the `hover` argument and
      nothing changes it): `set_state("normal")` turns hovering on, yet
      entering the canvas changes nothing, while entering an existing text
      label shows the hover colour. */
  lemma CanvasHoverFixedAtConstruction(p: Palette, masterColor: ColorSpec, b: ButtonState)
    requires !b.cfg.canvasHoverBound
    ensures var r := SetState(p, b, NORMAL);
      && r.cfg.hover
      && Step(p, masterColor, r, PointerEnter(CanvasArea)) == r
      && (r.textLabel.Some? ==>
            Step(p, masterColor, r, PointerEnter(TextArea)) == Paint(r, p.resolve(r.cfg.hoverColor, r.cfg.mode)))
  {
    EnterWithoutCanvasBinding(p, masterColor, SetState(p, b, NORMAL));
  }

  /** Entering, clicking and leaving an enabled, hovering button with a
      command runs the command once and ends in the plain foreground
      colour. */
  lemma EnterClickLeave(p: Palette, b: ButtonState)
    requires b.cfg.hover && Clickable(b.cfg)
    ensures var r := OnLeave(p, Clicked(p, OnEnter(p, b)));
      && r.invocations == b.invocations + 1
      && FilledWith(r.canvas.fillParts, p.resolve(b.cfg.fgColor, b.cfg.mode))
  {
  }

  /** A click runs the command exactly when it lands on a target with the
      click binding and the button has a command and is not disabled. */
  lemma ClickRunsCommandOnce(p: Palette, masterColor: ColorSpec, b: ButtonState, t: Target)
    ensures var r := Step(p, masterColor, b, PointerClick(t));
      && (ClickBound(b, t) && Clickable(b.cfg) ==> r.invocations == b.invocations + 1)
      && (!(ClickBound(b, t) && Clickable(b.cfg)) ==> r == b)
  {
  }

  /** Text given to a button without a text label is kept and shown by the
      next draw; an image given to a button without an image label is
      dropped, so the next draw shows none. */
  lemma TextKeptImageDropped(p: Palette, b: ButtonState, text: string, image: ImageRef)
    requires b.textLabel.None? && b.imageLabel.None? && b.cfg.image.None?
    requires text != ""
    ensures Draw(p, SetText(b, Some(text))).textLabel.Some?
    ensures Draw(p, SetText(b, Some(text))).textLabel.value.text == text
    ensures SetImage(b, Some(image)).cfg.image.None?
    ensures Draw(p, SetImage(b, Some(image))).imageLabel.None?
  {
  }

  /** Resizing does not clamp the corner radius again: a resize to below
      twice the radius leaves a radius too large for the new height. */
  lemma ResizeSkipsClamp(p: Palette, b: ButtonState, width: real, height: real)
    requires height < 2.0 * b.cfg.cornerRadius
    ensures 2.0 * UpdateDimensions(p, b, width, height).cfg.cornerRadius > UpdateDimensions(p, b, width, height).cfg.height
  {
  }

  /** The default-size button with text "OK": one text label, over the
      whole grid with padding equal to the corner radius, no image label,
      and the fill in the resolved foreground colour. */
  lemma TextOnlyScenario(p: Palette, main: ColorSpec, mainHover: ColorSpec, textColor: ColorSpec, mode: Mode, masterColor: ColorSpec)
    requires main != NoColor
    ensures var b := Init(p, Defaults(main, mainHover, textColor).(text := Some("OK")), mode, masterColor);
      && b.cfg.cornerRadius == 8.0
      && b.imageLabel.None?
      && b.textLabel.Some? && b.textLabel.value.text == "OK"
      && b.textLabel.value.grid == Some(Placement(0, 0, 2, 2, 8.0, ""))
      && FilledWith(b.canvas.fillParts, p.resolve(main, mode))
      && |b.canvas.fillParts| == 6 && b.canvas.borderParts == []
  {
  }

  /** Text and image with compound "left": the image in column 0 held to
      the east, the text in column 1 held to the west. */
  lemma CompoundLeftScenario(p: Palette, main: ColorSpec, mainHover: ColorSpec, textColor: ColorSpec, mode: Mode,
                             masterColor: ColorSpec, image: ImageRef)
    ensures var b := Init(p, Defaults(main, mainHover, textColor).(image := Some(image)), mode, masterColor);
      && b.imageLabel.Some? && b.textLabel.Some?
      && b.imageLabel.value.grid == Some(Placement(0, 0, 2, 1, 8.0, "e"))
      && b.textLabel.value.grid == Some(Placement(0, 1, 2, 1, 8.0, "w"))
  {
  }
}

=== FILE: button.dfy ===
/** The button widget: its configuration, what one `draw` produces, and the
    operations that change it. Every operation is a pure function from the
    button before to the button after. */
module Button {
  import opened Wrappers
  import opened Colors
  import opened Geometry
  import opened Layout

  /** Tk's state names, compared as strings like the source does. */
  const NORMAL: string := "normal"
  const DISABLED: string := "disabled"

  /** An image object handed to the button. */
  datatype ImageRef = ImageRef(id: nat)

  /** The two messages the button writes to standard error. */
  datatype Diagnostic = CannotChangeText | CannotChangeImage

  /** The drawing surface: background and the two layers of shapes. */
  datatype Canvas = Canvas(background: Color, borderParts: seq<Shape>, fillParts: seq<Shape>)

  /** A label shows the text or image it was last given; Tk drops an
      option passed as `None`, so a label never shows `None`. */
  datatype TextLabel = TextLabel(text: string, foreground: Color, background: Color, grid: Option<Placement>)

  datatype ImageLabel = ImageLabel(image: ImageRef, background: Color, grid: Option<Placement>)

  /** The constructor's arguments. A colour given as `NoColor` is Python's
      `None`; `hasCommand` says whether a command callback was passed. */
  datatype Options = Options(
    bgColor: ColorSpec, fgColor: ColorSpec, hoverColor: ColorSpec, borderColor: ColorSpec,
    borderWidth: real, hasCommand: bool, width: real, height: real, cornerRadius: real,
    textColor: ColorSpec, text: Option<string>, hover: bool, image: Option<ImageRef>,
    compound: string, state: string)

  /** The constructor's defaults; the colour manager's MAIN, MAIN_HOVER and
      TEXT colours are parameters because their values are not modelled. */
  function Defaults(main: ColorSpec, mainHover: ColorSpec, textColor: ColorSpec): (o: Options)
    ensures o.width == 120.0 && o.height == 32.0 && o.cornerRadius == 8.0 && o.borderWidth == 0.0
    ensures o.bgColor == NoColor && o.borderColor == NoColor && !o.hasCommand && o.image == None
    ensures o.text == Some("CTkButton") && o.hover && o.compound == "left" && o.state == NORMAL
    ensures o.fgColor == main && o.hoverColor == mainHover && o.textColor == textColor
  {
    Options(NoColor, main, mainHover, NoColor, 0.0, false, 120.0, 32.0, 8.0,
            textColor, Some("CTkButton"), true, None, "left", NORMAL)
  }

  /** The configuration the widget keeps. `canvasHoverBound` records
      whether the canvas got its Enter/Leave bindings at construction. */
  datatype Config = Config(
    mode: Mode,
    bgColor: ColorSpec, fgColor: ColorSpec, hoverColor: ColorSpec, borderColor: ColorSpec, textColor: ColorSpec,
    width: real, height: real, cornerRadius: real, innerCornerRadius: real, borderWidth: real,
    text: Option<string>, image: Option<ImageRef>, compound: string,
    state: string, hover: bool, hasCommand: bool, canvasHoverBound: bool)

  /** The part of the configuration the canvas is drawn from. */
  datatype Look = Look(
    mode: Mode, bgColor: ColorSpec, fgColor: ColorSpec, borderColor: ColorSpec, state: string,
    width: real, height: real, cornerRadius: real, innerCornerRadius: real, borderWidth: real)

  function LookOf(c: Config): Look
  {
    Look(c.mode, c.bgColor, c.fgColor, c.borderColor, c.state,
         c.width, c.height, c.cornerRadius, c.innerCornerRadius, c.borderWidth)
  }

  /** Everything the widget holds: its configuration, what is on screen,
      how often the command ran and the standard-error log. */
  datatype ButtonState = ButtonState(
    cfg: Config, canvas: Canvas, textLabel: Option<TextLabel>, imageLabel: Option<ImageLabel>,
    invocations: nat, diagnostics: seq<Diagnostic>)

  /** Text that makes `draw` create a text label: present and not empty. */
  predicate ShowsText(text: Option<string>)
  {
    text.Some? && text.value != ""
  }

  /** The colour of the fill layer and of the label backgrounds after a
      draw: the foreground colour, darkened while disabled. */
  function FillColor(p: Palette, k: Look): (fill: Color)
    ensures k.state == DISABLED ==> fill == p.darken(p.resolve(k.fgColor, k.mode))
    ensures k.state != DISABLED ==> fill == p.resolve(k.fgColor, k.mode)
  {
    var fg := p.resolve(k.fgColor, k.mode);
    if k.state == DISABLED then p.darken(fg) else fg
  }

  /** The canvas of look `k` with its fill layer in colour `fill`: the
      background, then the border layer in the border colour, then the fill
      layer. */
  function PaintedCanvas(p: Palette, k: Look, fill: Color): (c: Canvas)
    ensures c.background == p.resolve(k.bgColor, k.mode)
    ensures |c.fillParts| == if k.cornerRadius > 0.0 then 6 else 2
    ensures |c.borderParts| == if k.borderWidth <= 0.0 then 0 else if k.cornerRadius > 0.0 then 6 else 2
    ensures SameOutline(c.fillParts, FillShapes(k.width, k.height, k.borderWidth, k.cornerRadius, k.innerCornerRadius))
    ensures SameOutline(c.borderParts, BorderShapes(k.width, k.height, k.borderWidth, k.cornerRadius))
    ensures FilledWith(c.fillParts, fill)
    ensures FilledWith(c.borderParts, p.resolve(k.borderColor, k.mode))
  {
    var border := BorderShapes(k.width, k.height, k.borderWidth, k.cornerRadius);
    var shapes := FillShapes(k.width, k.height, k.borderWidth, k.cornerRadius, k.innerCornerRadius);
    RecolorUniform(border, p.resolve(k.borderColor, k.mode));
    RecolorUniform(shapes, fill);
    Canvas(p.resolve(k.bgColor, k.mode), Recolor(border, p.resolve(k.borderColor, k.mode)), Recolor(shapes, fill))
  }

  /** Repainting the fill layer of a painted canvas paints it anew. */
  lemma RepaintCanvas(p: Palette, k: Look, fill: Color, fill': Color)
    ensures var c := PaintedCanvas(p, k, fill);
      c.(fillParts := Recolor(c.fillParts, fill')) == PaintedCanvas(p, k, fill')
  {
  }

  /** The canvas one `draw` leaves: nothing of the previous canvas is kept,
      and the fill layer is in the drawn colour. */
  function RenderCanvas(p: Palette, k: Look): (c: Canvas)
    ensures c == PaintedCanvas(p, k, FillColor(p, k))
    ensures FilledWith(c.fillParts, FillColor(p, k))
  {
    PaintedCanvas(p, k, FillColor(p, k))
  }

  /** `draw`: rebuild the canvas, create a new text label when there is text
      and a new image label when there is an image (a label created earlier
      stays otherwise), then grid the labels that exist. */
  function Draw(p: Palette, b: ButtonState): (r: ButtonState)
    ensures r.cfg == b.cfg && r.invocations == b.invocations && r.diagnostics == b.diagnostics
    ensures r.canvas == RenderCanvas(p, LookOf(b.cfg))
    ensures r.textLabel.Some? <==> ShowsText(b.cfg.text) || b.textLabel.Some?
    ensures r.imageLabel.Some? <==> b.cfg.image.Some? || b.imageLabel.Some?
    ensures ShowsText(b.cfg.text) ==>
      && Some(r.textLabel.value.text) == b.cfg.text
      && r.textLabel.value.foreground == p.resolve(b.cfg.textColor, b.cfg.mode)
      && r.textLabel.value.background == FillColor(p, LookOf(b.cfg))
    ensures !ShowsText(b.cfg.text) && b.textLabel.Some? ==>
      r.textLabel.value == b.textLabel.value.(grid := r.textLabel.value.grid)
    ensures b.cfg.image.Some? ==>
      Some(r.imageLabel.value.image) == b.cfg.image && r.imageLabel.value.background == FillColor(p, LookOf(b.cfg))
    ensures b.cfg.image.None? && b.imageLabel.Some? ==>
      r.imageLabel.value == b.imageLabel.value.(grid := r.imageLabel.value.grid)
    ensures var g := Arrange(r.imageLabel.Some?, r.textLabel.Some?, b.cfg.compound, b.cfg.cornerRadius);
      && (g.text.Some? ==> r.textLabel.value.grid == g.text)
      && (g.image.Some? ==> r.imageLabel.value.grid == g.image)
      && (g.text.None? && r.textLabel.Some? ==>
            r.textLabel.value.grid == if ShowsText(b.cfg.text) then None else b.textLabel.value.grid)
      && (g.image.None? && r.imageLabel.Some? ==>
            r.imageLabel.value.grid == if b.cfg.image.Some? then None else b.imageLabel.value.grid)
  {
    var c := b.cfg;
    var fill := FillColor(p, LookOf(c));
    var textLabel :=
      if ShowsText(c.text) then Some(TextLabel(c.text.value, p.resolve(c.textColor, c.mode), fill, None))
      else b.textLabel;
    var imageLabel :=
      if c.image.Some? then Some(ImageLabel(c.image.value, fill, None))
      else b.imageLabel;
    var g := Arrange(imageLabel.Some?, textLabel.Some?, c.compound, c.cornerRadius);
    b.(canvas := RenderCanvas(p, LookOf(c)),
       textLabel := if textLabel.Some? && g.text.Some? then Some(textLabel.value.(grid := g.text)) else textLabel,
       imageLabel := if imageLabel.Some? && g.image.Some? then Some(imageLabel.value.(grid := g.image)) else imageLabel)
  }

  /** The configuration `__init__` derives from its arguments: colour
      fallbacks, the clamped corner radius and the inner radius. */
  function InitConfig(o: Options, mode: Mode, masterColor: ColorSpec): (c: Config)
    ensures c.bgColor == if o.bgColor == NoColor then masterColor else o.bgColor
    ensures o.fgColor != NoColor ==> c.fgColor == o.fgColor
    ensures o.fgColor == NoColor ==> c.fgColor == c.bgColor
    ensures o.hoverColor != NoColor ==> c.hoverColor == o.hoverColor
    ensures o.hoverColor == NoColor ==> c.hoverColor == c.fgColor
    ensures c.borderColor == o.borderColor && c.textColor == o.textColor
    ensures 2.0 * c.cornerRadius <= c.height && c.cornerRadius <= o.cornerRadius
    ensures c.cornerRadius == ClampCornerRadius(o.cornerRadius, o.width, o.height)
    ensures c.innerCornerRadius == InnerCornerRadius(c.cornerRadius, c.borderWidth)
    ensures c.width == o.width && c.height == o.height && c.borderWidth == o.borderWidth
    ensures c.text == o.text && c.image == o.image && c.compound == o.compound
    ensures c.state == o.state && c.hover == o.hover && c.canvasHoverBound == o.hover
    ensures c.hasCommand == o.hasCommand && c.mode == mode
  {
    var bg := if o.bgColor == NoColor then masterColor else o.bgColor;
    var fg := if o.fgColor == NoColor then bg else o.fgColor;
    var fg := if fg == NoColor then bg else fg;
    var hover := if o.hoverColor == NoColor then fg else o.hoverColor;
    var cr := ClampCornerRadius(o.cornerRadius, o.width, o.height);
    Config(
      mode, bg, fg, hover, o.borderColor, o.textColor,
      o.width, o.height, cr, InnerCornerRadius(cr, o.borderWidth), o.borderWidth,
      o.text, o.image, o.compound, o.state, o.hover, o.hasCommand, o.hover)
  }

  /** `__init__`: derive the configuration, bind the canvas and draw. */
  function Init(p: Palette, o: Options, mode: Mode, masterColor: ColorSpec): (r: ButtonState)
    ensures r.cfg == InitConfig(o, mode, masterColor)
    ensures r.invocations == 0 && r.diagnostics == []
    ensures r.canvas == RenderCanvas(p, LookOf(r.cfg))
    ensures r.textLabel.Some? <==> ShowsText(o.text)
    ensures r.imageLabel.Some? <==> o.image.Some?
    ensures r == Draw(p, ButtonState(r.cfg, Canvas(NoFill, [], []), None, None, 0, []))
  {
    Draw(p, ButtonState(InitConfig(o, mode, masterColor), Canvas(NoFill, [], []), None, None, 0, []))
  }

  /** `update_dimensions`: take the new size and redraw, without clamping
      the corner radius again. */
  function UpdateDimensions(p: Palette, b: ButtonState, width: real, height: real): (r: ButtonState)
    ensures r.cfg == b.cfg.(width := width, height := height)
    ensures r == Draw(p, b.(cfg := r.cfg))
  {
    Draw(p, b.(cfg := b.cfg.(width := width, height := height)))
  }

  /** `set_text`: the text is always stored; an existing label shows it
      (a `None` text leaves the label as it was, since Tk drops the
      option), and without a label a diagnostic is written. Nothing is
      redrawn. */
  function SetText(b: ButtonState, text: Option<string>): (r: ButtonState)
    ensures r.cfg == b.cfg.(text := text)
    ensures r.canvas == b.canvas && r.imageLabel == b.imageLabel && r.invocations == b.invocations
    ensures b.textLabel.Some? && text.Some? ==> r.textLabel == Some(b.textLabel.value.(text := text.value))
    ensures text.None? ==> r.textLabel == b.textLabel
    ensures b.textLabel.Some? ==> r.diagnostics == b.diagnostics
    ensures b.textLabel.None? ==>
      r.textLabel == None && r.diagnostics == b.diagnostics + [CannotChangeText]
  {
    if b.textLabel.Some? then
      var shown := if text.Some? then Some(b.textLabel.value.(text := text.value)) else b.textLabel;
      b.(cfg := b.cfg.(text := text), textLabel := shown)
    else
      b.(cfg := b.cfg.(text := text), diagnostics := b.diagnostics + [CannotChangeText])
  }

  /** `set_image`: the image is stored only when an image label exists,
      and that label shows it (a `None` image leaves the label as it was);
      otherwise only a diagnostic is written. Nothing is redrawn. */
  function SetImage(b: ButtonState, image: Option<ImageRef>): (r: ButtonState)
    ensures r.canvas == b.canvas && r.textLabel == b.textLabel && r.invocations == b.invocations
    ensures b.imageLabel.Some? ==> r.cfg == b.cfg.(image := image) && r.diagnostics == b.diagnostics
    ensures b.imageLabel.Some? && image.Some? ==> r.imageLabel == Some(b.imageLabel.value.(image := image.value))
    ensures image.None? ==> r.imageLabel == b.imageLabel
    ensures b.imageLabel.None? ==> r == b.(diagnostics := b.diagnostics + [CannotChangeImage])
  {
    if b.imageLabel.Some? then
      var shown := if image.Some? then Some(b.imageLabel.value.(image := image.value)) else b.imageLabel;
      b.(cfg := b.cfg.(image := image), imageLabel := shown)
    else
      b.(diagnostics := b.diagnostics + [CannotChangeImage])
  }

  /** Give the fill layer and both label backgrounds the colour `fill`,
      leaving the border layer and everything else alone. */
  function Paint(b: ButtonState, fill: Color): (r: ButtonState)
    ensures r.cfg == b.cfg && r.invocations == b.invocations && r.diagnostics == b.diagnostics
    ensures r.canvas == b.canvas.(fillParts := Recolor(b.canvas.fillParts, fill))
    ensures SameOutline(r.canvas.fillParts, b.canvas.fillParts) && FilledWith(r.canvas.fillParts, fill)
    ensures r.textLabel.Some? == b.textLabel.Some? && r.imageLabel.Some? == b.imageLabel.Some?
    ensures r.textLabel.Some? ==> r.textLabel == Some(b.textLabel.value.(background := fill))
    ensures r.imageLabel.Some? ==> r.imageLabel == Some(b.imageLabel.value.(background := fill))
  {
    RecolorUniform(b.canvas.fillParts, fill);
    b.(canvas := b.canvas.(fillParts := Recolor(b.canvas.fillParts, fill)),
       textLabel := if b.textLabel.Some? then Some(b.textLabel.value.(background := fill)) else None,
       imageLabel := if b.imageLabel.Some? then Some(b.imageLabel.value.(background := fill)) else None)
  }

  /** The button shows `fill` on the fill layer and on the backgrounds of
      the labels it has, with every other part of `b` unchanged. */
  predicate RepaintedFrom(r: ButtonState, b: ButtonState, fill: Color)
  {
    && r.cfg == b.cfg && r.invocations == b.invocations && r.diagnostics == b.diagnostics
    && SameOutline(r.canvas.fillParts, b.canvas.fillParts) && FilledWith(r.canvas.fillParts, fill)
    && r.canvas.borderParts == b.canvas.borderParts && r.canvas.background == b.canvas.background
    && (r.textLabel.Some? <==> b.textLabel.Some?) && (r.imageLabel.Some? <==> b.imageLabel.Some?)
    && (r.textLabel.Some? ==> r.textLabel == Some(b.textLabel.value.(background := fill)))
    && (r.imageLabel.Some? ==> r.imageLabel == Some(b.imageLabel.value.(background := fill)))
  }

  /** `on_enter`: show the hover colour, if hovering is on. */
  function OnEnter(p: Palette, b: ButtonState): (r: ButtonState)
    ensures !b.cfg.hover ==> r == b
    ensures b.cfg.hover ==> RepaintedFrom(r, b, p.resolve(b.cfg.hoverColor, b.cfg.mode))
  {
    if b.cfg.hover then Paint(b, p.resolve(b.cfg.hoverColor, b.cfg.mode)) else b
  }

  /** `on_leave`: show the plain (never darkened) foreground colour, if
      hovering is on. */
  function OnLeave(p: Palette, b: ButtonState): (r: ButtonState)
    ensures !b.cfg.hover ==> r == b
    ensures b.cfg.hover ==> RepaintedFrom(r, b, p.resolve(b.cfg.fgColor, b.cfg.mode))
  {
    if b.cfg.hover then Paint(b, p.resolve(b.cfg.fgColor, b.cfg.mode)) else b
  }

  /** The command runs on a click: one is bound and the button is not
      disabled. */
  predicate Clickable(c: Config)
  {
    c.hasCommand && c.state != DISABLED
  }

  /** `clicked`: when clickable, run the command once and repaint as on
      leaving; otherwise do nothing. */
  function Clicked(p: Palette, b: ButtonState): (r: ButtonState)
    ensures Clickable(b.cfg) ==> r.invocations == b.invocations + 1
    ensures Clickable(b.cfg) && b.cfg.hover ==>
      RepaintedFrom(r, b.(invocations := r.invocations), p.resolve(b.cfg.fgColor, b.cfg.mode))
    ensures Clickable(b.cfg) && !b.cfg.hover ==> r == b.(invocations := r.invocations)
    ensures !Clickable(b.cfg) ==> r == b
  {
    if Clickable(b.cfg) then OnLeave(p, b.(invocations := b.invocations + 1)) else b
  }

  /** `set_state`: store the state; "disabled" turns hovering off and
      "normal" turns it on, any other state leaves it; always redraw. */
  function SetState(p: Palette, b: ButtonState, state: string): (r: ButtonState)
    ensures r.cfg.state == state
    ensures state == DISABLED ==> !r.cfg.hover
    ensures state == NORMAL ==> r.cfg.hover
    ensures state != DISABLED && state != NORMAL ==> r.cfg.hover == b.cfg.hover
    ensures r.cfg == b.cfg.(state := state, hover := r.cfg.hover)
    ensures r == Draw(p, b.(cfg := r.cfg))
  {
    var hover := if state == DISABLED then false else if state == NORMAL then true else b.cfg.hover;
    Draw(p, b.(cfg := b.cfg.(state := state, hover := hover)))
  }

  /** `set_appearance_mode`: switch to the mode the string names, if any,
      and redraw in every case. */
  function SetAppearanceMode(p: Palette, b: ButtonState, modeString: string): (r: ButtonState)
    ensures SameIgnoringCase(modeString, "dark") ==> r.cfg.mode == Dark
    ensures SameIgnoringCase(modeString, "light") ==> r.cfg.mode == Light
    ensures !SameIgnoringCase(modeString, "dark") && !SameIgnoringCase(modeString, "light") ==> r.cfg.mode == b.cfg.mode
    ensures r.cfg == b.cfg.(mode := r.cfg.mode)
    ensures r == Draw(p, b.(cfg := r.cfg))
  {
    var m := ParseMode(modeString);
    Draw(p, b.(cfg := b.cfg.(mode := if m.Some? then m.value else b.cfg.mode)))
  }

  /** The keyword arguments of `configure` the button handles itself. A
      `bgColor` of `Set(NoColor)` is `bg_color=None`. */
  datatype ConfigureArgs = ConfigureArgs(
    text: Change<Option<string>>, state: Change<string>, image: Change<Option<ImageRef>>,
    fgColor: Change<ColorSpec>, bgColor: Change<ColorSpec>, hoverColor: Change<ColorSpec>,
    textColor: Change<ColorSpec>)

  const NoArgs: ConfigureArgs := ConfigureArgs(Keep, Keep, Keep, Keep, Keep, Keep, Keep)

  predicate ChangesColor(a: ConfigureArgs)
  {
    a.fgColor.Set? || a.bgColor.Set? || a.hoverColor.Set? || a.textColor.Set?
  }

  /** The configuration after `configure`'s colour options are stored. */
  function WithColors(c: Config, masterColor: ColorSpec, a: ConfigureArgs): (r: Config)
    ensures r.fgColor == if a.fgColor.Set? then a.fgColor.value else c.fgColor
    ensures r.bgColor == if !a.bgColor.Set? then c.bgColor else if a.bgColor.value == NoColor then masterColor else a.bgColor.value
    ensures r.hoverColor == if a.hoverColor.Set? then a.hoverColor.value else c.hoverColor
    ensures r.textColor == if a.textColor.Set? then a.textColor.value else c.textColor
    ensures r == c.(fgColor := r.fgColor, bgColor := r.bgColor, hoverColor := r.hoverColor, textColor := r.textColor)
    ensures LookOf(r) == LookOf(c).(fgColor := r.fgColor, bgColor := r.bgColor)
  {
    c.(fgColor := if a.fgColor.Set? then a.fgColor.value else c.fgColor,
       bgColor := if !a.bgColor.Set? then c.bgColor
                  else if a.bgColor.value == NoColor then masterColor else a.bgColor.value,
       hoverColor := if a.hoverColor.Set? then a.hoverColor.value else c.hoverColor,
       textColor := if a.textColor.Set? then a.textColor.value else c.textColor)
  }

  /** `configure`'s `text` option: `set_text` when it is passed. */
  function ConfigureText(b: ButtonState, text: Change<Option<string>>): (r: ButtonState)
    ensures text.Set? ==> r == SetText(b, text.value)
    ensures text.Keep? ==> r == b
    ensures r.cfg == b.cfg.(text := if text.Set? then text.value else b.cfg.text)
    ensures r.imageLabel == b.imageLabel
    ensures r.textLabel ==
      if text.Set? && text.value.Some? && b.textLabel.Some?
      then Some(b.textLabel.value.(text := text.value.value)) else b.textLabel
    ensures r.diagnostics == b.diagnostics + (if text.Set? && b.textLabel.None? then [CannotChangeText] else [])
    ensures r.canvas == b.canvas && r.invocations == b.invocations
  {
    if text.Set? then SetText(b, text.value) else b
  }

  /** `configure`'s `state` option: `set_state` when it is passed. */
  function ConfigureState(p: Palette, b: ButtonState, state: Change<string>): (r: ButtonState)
    ensures state.Set? ==> r == SetState(p, b, state.value) && r.canvas == RenderCanvas(p, LookOf(r.cfg))
    ensures state.Keep? ==> r == b
    ensures r.cfg == b.cfg.(
      state := if state.Set? then state.value else b.cfg.state,
      hover := if state.Set? && state.value == DISABLED then false
               else if state.Set? && state.value == NORMAL then true
               else b.cfg.hover)
    ensures r.imageLabel.Some? <==> b.imageLabel.Some? || (state.Set? && b.cfg.image.Some?)
    ensures r.textLabel.Some? <==> b.textLabel.Some? || (state.Set? && ShowsText(b.cfg.text))
    ensures r.diagnostics == b.diagnostics && r.invocations == b.invocations
  {
    if state.Set? then SetState(p, b, state.value) else b
  }

  /** `configure`'s `image` option: `set_image` when it is passed. */
  function ConfigureImage(b: ButtonState, image: Change<Option<ImageRef>>): (r: ButtonState)
    ensures image.Set? ==> r == SetImage(b, image.value)
    ensures image.Keep? ==> r == b
    ensures r.cfg == b.cfg.(image := if image.Set? && b.imageLabel.Some? then image.value else b.cfg.image)
    ensures r.textLabel == b.textLabel
    ensures r.imageLabel ==
      if image.Set? && image.value.Some? && b.imageLabel.Some?
      then Some(b.imageLabel.value.(image := image.value.value)) else b.imageLabel
    ensures r.diagnostics == b.diagnostics + (if image.Set? && b.imageLabel.None? then [CannotChangeImage] else [])
    ensures r.canvas == b.canvas && r.invocations == b.invocations
    ensures LookOf(r.cfg) == LookOf(b.cfg)
  {
    if image.Set? then SetImage(b, image.value) else b
  }

  /** `configure`'s first three options in the source's order: `text`
      through `set_text`, `state` through `set_state` (which redraws), then
      `image` through `set_image`. The image is stored only when an image
      label exists by then: one the button had, or one the redraw of a
      passed `state` created for an image stored earlier. */
  function ConfigureSetters(p: Palette, b: ButtonState, a: ConfigureArgs): (r: ButtonState)
    ensures r.cfg == b.cfg.(text := r.cfg.text, state := r.cfg.state, hover := r.cfg.hover, image := r.cfg.image)
    ensures r.cfg.text == if a.text.Set? then a.text.value else b.cfg.text
    ensures r.cfg.state == if a.state.Set? then a.state.value else b.cfg.state
    ensures r.cfg.hover ==
      if a.state.Set? && a.state.value == DISABLED then false
      else if a.state.Set? && a.state.value == NORMAL then true
      else b.cfg.hover
    ensures var labelled := b.imageLabel.Some? || (a.state.Set? && b.cfg.image.Some?);
      && (r.imageLabel.Some? <==> labelled)
      && r.cfg.image == (if a.image.Set? && labelled then a.image.value else b.cfg.image)
      && r.diagnostics == b.diagnostics
           + (if a.text.Set? && b.textLabel.None? then [CannotChangeText] else [])
           + (if a.image.Set? && !labelled then [CannotChangeImage] else [])
    ensures r.textLabel.Some? <==> b.textLabel.Some? || (a.state.Set? && ShowsText(r.cfg.text))
    ensures a.image.Set? && a.image.value.Some? && r.imageLabel.Some? ==> r.imageLabel.value.image == a.image.value.value
    ensures !a.state.Set? ==>
      r.textLabel ==
        if a.text.Set? && a.text.value.Some? && b.textLabel.Some?
        then Some(b.textLabel.value.(text := a.text.value.value)) else b.textLabel
    ensures !a.state.Set? ==>
      r.imageLabel ==
        if a.image.Set? && a.image.value.Some? && b.imageLabel.Some?
        then Some(b.imageLabel.value.(image := a.image.value.value)) else b.imageLabel
    ensures a.state.Set? ==>
      var m := SetState(p, ConfigureText(b, a.text), a.state.value);
      && r.textLabel == m.textLabel
      && r.imageLabel ==
           if a.image.Set? && a.image.value.Some? && m.imageLabel.Some?
           then Some(m.imageLabel.value.(image := a.image.value.value)) else m.imageLabel
    ensures r.invocations == b.invocations
    ensures a.state.Set? ==> r.canvas == RenderCanvas(p, LookOf(r.cfg))
    ensures !a.state.Set? ==> r.canvas == b.canvas
  {
    SettersConfig(p, b, a);
    SettersKeepingStateLabels(p, b, a);
    SettersWithStateLabels(p, b, a);
    ConfigureImage(ConfigureState(p, ConfigureText(b, a.text), a.state), a.image)
  }

  /** The configuration and the diagnostics after `configure`'s setters. */
  lemma SettersConfig(p: Palette, b: ButtonState, a: ConfigureArgs)
    ensures var r := ConfigureImage(ConfigureState(p, ConfigureText(b, a.text), a.state), a.image);
      var labelled := b.imageLabel.Some? || (a.state.Set? && b.cfg.image.Some?);
      && r.cfg == b.cfg.(
           text := if a.text.Set? then a.text.value else b.cfg.text,
           state := if a.state.Set? then a.state.value else b.cfg.state,
           hover := if a.state.Set? && a.state.value == DISABLED then false
                    else if a.state.Set? && a.state.value == NORMAL then true
                    else b.cfg.hover,
           image := if a.image.Set? && labelled then a.image.value else b.cfg.image)
      && (r.imageLabel.Some? <==> labelled)
      && r.diagnostics == b.diagnostics
           + (if a.text.Set? && b.textLabel.None? then [CannotChangeText] else [])
           + (if a.image.Set? && !labelled then [CannotChangeImage] else [])
  {
  }

  /** The labels after `configure`'s setters when no `state` is passed:
      `set_text` and `set_image` relabel the labels the button has. */
  lemma SettersKeepingStateLabels(p: Palette, b: ButtonState, a: ConfigureArgs)
    ensures var r := ConfigureImage(ConfigureState(p, ConfigureText(b, a.text), a.state), a.image);
      !a.state.Set? ==>
        && r.textLabel ==
             (if a.text.Set? && a.text.value.Some? && b.textLabel.Some?
              then Some(b.textLabel.value.(text := a.text.value.value)) else b.textLabel)
        && r.imageLabel ==
             (if a.image.Set? && a.image.value.Some? && b.imageLabel.Some?
              then Some(b.imageLabel.value.(image := a.image.value.value)) else b.imageLabel)
  {
  }

  /** The labels after `configure`'s setters when `state` is passed: those
      of the redraw `set_state` makes, with the image relabelled. */
  lemma SettersWithStateLabels(p: Palette, b: ButtonState, a: ConfigureArgs)
    ensures var r := ConfigureImage(ConfigureState(p, ConfigureText(b, a.text), a.state), a.image);
      a.state.Set? ==>
        var m := SetState(p, ConfigureText(b, a.text), a.state.value);
        && r.textLabel == m.textLabel
        && r.imageLabel ==
             (if a.image.Set? && a.image.value.Some? && m.imageLabel.Some?
              then Some(m.imageLabel.value.(image := a.image.value.value)) else m.imageLabel)
  {
  }

  /** `configure`: the three setters, then the four colours, which are
      stored and cause one redraw at the end. Options not passed keep their
      values, and nothing outside the options changes. */
  function Configure(p: Palette, b: ButtonState, masterColor: ColorSpec, a: ConfigureArgs): (r: ButtonState)
    ensures r.cfg.fgColor == if a.fgColor.Set? then a.fgColor.value else b.cfg.fgColor
    ensures r.cfg.bgColor ==
      if !a.bgColor.Set? then b.cfg.bgColor
      else if a.bgColor.value == NoColor then masterColor else a.bgColor.value
    ensures r.cfg.hoverColor == if a.hoverColor.Set? then a.hoverColor.value else b.cfg.hoverColor
    ensures r.cfg.textColor == if a.textColor.Set? then a.textColor.value else b.cfg.textColor
    ensures r.cfg.text == if a.text.Set? then a.text.value else b.cfg.text
    ensures r.cfg.state == if a.state.Set? then a.state.value else b.cfg.state
    ensures !a.state.Set? ==> r.cfg.hover == b.cfg.hover
    ensures r.cfg.borderColor == b.cfg.borderColor && r.cfg.compound == b.cfg.compound
    ensures r.invocations == b.invocations
    ensures ChangesColor(a) || a.state.Set? ==> r.canvas == RenderCanvas(p, LookOf(r.cfg))
    ensures !ChangesColor(a) && !a.state.Set? ==> r.canvas == b.canvas
    ensures var s := ConfigureSetters(p, b, a);
      && r.cfg == s.cfg.(fgColor := r.cfg.fgColor, bgColor := r.cfg.bgColor,
                         hoverColor := r.cfg.hoverColor, textColor := r.cfg.textColor)
      && (ChangesColor(a) ==> r == Draw(p, s.(cfg := r.cfg)))
      && (!ChangesColor(a) ==> r == s.(cfg := r.cfg))
    ensures a == NoArgs ==> r == b
  {
    var s := ConfigureSetters(p, b, a);
    var c := s.(cfg := WithColors(s.cfg, masterColor, a));
    if ChangesColor(a) then Draw(p, c) else c
  }

  /** `configure` never changes the size, the radii, the border, the mode,
      the compound, the command or the canvas bindings. */
  lemma ConfigureKeepsGeometry(p: Palette, b: ButtonState, masterColor: ColorSpec, a: ConfigureArgs)
    ensures var r := Configure(p, b, masterColor, a);
      && r.cfg.width == b.cfg.width && r.cfg.height == b.cfg.height
      && r.cfg.cornerRadius == b.cfg.cornerRadius && r.cfg.innerCornerRadius == b.cfg.innerCornerRadius
      && r.cfg.borderWidth == b.cfg.borderWidth && r.cfg.mode == b.cfg.mode
      && r.cfg.compound == b.cfg.compound && r.cfg.hasCommand == b.cfg.hasCommand
      && r.cfg.canvasHoverBound == b.cfg.canvasHoverBound
  {
  }

  /** `configure`'s `image` is stored exactly when an image label exists by
      the time `set_image` runs: one the button already had, or one the
      redraw of a passed `state` creates for an image stored earlier. */
  lemma ConfigureStoresImage(p: Palette, b: ButtonState, masterColor: ColorSpec, a: ConfigureArgs)
    ensures var r := Configure(p, b, masterColor, a);
      var labelled := b.imageLabel.Some? || (a.state.Set? && b.cfg.image.Some?);
      && (a.image.Set? && labelled ==> r.cfg.image == a.image.value)
      && (a.image.Keep? || !labelled ==> r.cfg.image == b.cfg.image)
  {
  }
}

=== FILE: colors.dfy ===
/** Colours, appearance modes and the mode string parser of the button. */
module Colors {
  import opened Wrappers

  /** A concrete colour as the drawing toolkit receives it, e.g. "#1F6AA5". */
  type Color = string

  /** The fill a freshly created canvas shape has before it is configured. */
  const NoFill: Color := ""

  /** A colour option as stored in the button: absent (Python `None`),
      one colour for both modes, or a (light, dark) pair. */
  datatype ColorSpec = NoColor | Single(color: Color) | Pair(light: Color, dark: Color)

  /** The global appearance mode (0 is light and 1 is dark in the source). */
  datatype Mode = Light | Dark

  /** The colour manager's two functions. Their definitions are not part of
      this model, so they are left uninterpreted: every operation that
      resolves or darkens a colour takes a `Palette` as a parameter.
      - `resolve`: the colour of a specification in a given mode;
      - `darken`: the darkened variant used while the button is disabled. */
  datatype Palette = Palette(resolve: (ColorSpec, Mode) -> Color, darken: Color -> Color)

  /** Python's `str.lower` on one character, as far as it can produce an
      ASCII letter: the capitals A-Z and the KELVIN SIGN (which lowers to
      'k'). Every other character is left as it is. */
  function LowerChar(c: char): (r: char)
    ensures 'A' <= c <= 'Z' ==> 'a' <= r <= 'z' && r as int - c as int == 32
    ensures !('A' <= c <= 'Z') && c != '\U{212A}' ==> r == c
  {
    if 'A' <= c <= 'Z' then (c as int + 32) as char
    else if c == '\U{212A}' then 'k'
    else c
  }

  /** `s.lower()`, character by character. */
  function Lower(s: string): (r: string)
    ensures |r| == |s|
    ensures forall i :: 0 <= i < |s| ==> r[i] == LowerChar(s[i])
  {
    if s == [] then [] else [LowerChar(s[0])] + Lower(s[1..])
  }

  /** `s.lower() == word`, stated position by position. */
  predicate SameIgnoringCase(s: string, word: string)
  {
    |s| == |word| && forall i :: 0 <= i < |s| ==> LowerChar(s[i]) == word[i]
  }

  /** The mode a mode string selects: "dark" or "light" in any letter case;
      any other string selects nothing. */
  function ParseMode(s: string): (m: Option<Mode>)
    ensures m == Some(Dark) <==> SameIgnoringCase(s, "dark")
    ensures m == Some(Light) <==> SameIgnoringCase(s, "light")
    ensures m == None <==> !SameIgnoringCase(s, "dark") && !SameIgnoringCase(s, "light")
  {
    LowerIsSameIgnoringCase(s, "dark");
    LowerIsSameIgnoringCase(s, "light");
    if Lower(s) == "dark" then Some(Dark)
    else if Lower(s) == "light" then Some(Light)
    else None
  }

  /** Comparing the lowered string with a word is the position-by-position
      case-insensitive comparison. */
  lemma LowerIsSameIgnoringCase(s: string, word: string)
    ensures Lower(s) == word <==> SameIgnoringCase(s, word)
  {
  }

  /** The KELVIN SIGN makes "DARK" spelt with it select the dark mode, as
      Python's lowering does. */
  lemma KelvinSignSelectsDark()
    ensures ParseMode("DAR\U{212A}") == Some(Dark)
    ensures ParseMode("Light") == Some(Light)
    ensures ParseMode("system") == None
  {
  }
}

=== FILE: events.dfy ===
/** The event bindings of the button and the invariant every event keeps.
    The canvas reacts to Enter/Leave only if hovering was on at
    construction; the labels always do; the canvas and the labels all
    react to clicks; the frame reacts to resizes. */
module Events {
  import opened Wrappers
  import opened Colors
  import opened Geometry
  import opened Button

  /** The region an event happens on. */
  datatype Target = CanvasArea | TextArea | ImageArea

  /** Everything that can happen to a button after construction. */
  datatype Event =
    | Resize(width: real, height: real)
    | PointerEnter(target: Target)
    | PointerLeave(target: Target)
    | PointerClick(target: Target)
    | AppearanceChange(modeString: string)
    | ConfigureCall(args: ConfigureArgs)
    | SetStateCall(state: string)
    | SetTextCall(text: Option<string>)
    | SetImageCall(image: Option<ImageRef>)

  /** The target exists and has Enter/Leave bound. A label, once created,
      keeps its bindings. Labels take the hover and click handlers together;
      only the canvas can take clicks without hovering. */
  function HoverBound(b: ButtonState, t: Target): (bound: bool)
    ensures bound ==> ClickBound(b, t)
    ensures !t.CanvasArea? ==> (bound <==> ClickBound(b, t))
    ensures t.CanvasArea? ==> (bound <==> b.cfg.canvasHoverBound)
  {
    match t
    case CanvasArea => b.cfg.canvasHoverBound
    case TextArea => b.textLabel.Some?
    case ImageArea => b.imageLabel.Some?
  }

  /** The target exists and has the click handler bound: the canvas always,
      a label once it has been created. */
  function ClickBound(b: ButtonState, t: Target): (bound: bool)
    ensures t.CanvasArea? ==> bound
    ensures !bound ==> (t.TextArea? && b.textLabel.None?) || (t.ImageArea? && b.imageLabel.None?)
  {
    match t
    case CanvasArea => true
    case TextArea => b.textLabel.Some?
    case ImageArea => b.imageLabel.Some?
  }

  predicate IsPointerEvent(e: Event)
  {
    e.PointerEnter? || e.PointerLeave? || e.PointerClick?
  }

  /** The button after one event: each event goes to its handler, and a
      pointer event only when its target has that handler bound. */
  function Step(p: Palette, masterColor: ColorSpec, b: ButtonState, e: Event): (r: ButtonState)
    ensures match e
      case Resize(w, h) => r == UpdateDimensions(p, b, w, h)
      case PointerEnter(t) => r == if HoverBound(b, t) then OnEnter(p, b) else b
      case PointerLeave(t) => r == if HoverBound(b, t) then OnLeave(p, b) else b
      case PointerClick(t) => r == if ClickBound(b, t) then Clicked(p, b) else b
      case AppearanceChange(s) => r == SetAppearanceMode(p, b, s)
      case ConfigureCall(a) => r == Configure(p, b, masterColor, a)
      case SetStateCall(s) => r == SetState(p, b, s)
      case SetTextCall(t) => r == SetText(b, t)
      case SetImageCall(i) => r == SetImage(b, i)
  {
    match e
    case Resize(w, h) => UpdateDimensions(p, b, w, h)
    case PointerEnter(t) => if HoverBound(b, t) then OnEnter(p, b) else b
    case PointerLeave(t) => if HoverBound(b, t) then OnLeave(p, b) else b
    case PointerClick(t) => if ClickBound(b, t) then Clicked(p, b) else b
    case AppearanceChange(s) => SetAppearanceMode(p, b, s)
    case ConfigureCall(a) => Configure(p, b, masterColor, a)
    case SetStateCall(s) => SetState(p, b, s)
    case SetTextCall(t) => SetText(b, t)
    case SetImageCall(i) => SetImage(b, i)
  }

  /** Only a click can run the command, at most once per event, and no
      event changes the canvas bindings or whether there is a command. */
  lemma StepKeepsBindings(p: Palette, masterColor: ColorSpec, b: ButtonState, e: Event)
    ensures var r := Step(p, masterColor, b, e);
      && (!e.PointerClick? ==> r.invocations == b.invocations)
      && r.invocations <= b.invocations + 1
      && r.cfg.canvasHoverBound == b.cfg.canvasHoverBound && r.cfg.hasCommand == b.cfg.hasCommand
  {
    if e.ConfigureCall? {
      ConfigureKeepsGeometry(p, b, masterColor, e.args);
    }
  }

  /** No event unbinds a target: labels are never destroyed, and the
      canvas bindings are fixed at construction. */
  lemma StepKeepsTargetBindings(p: Palette, masterColor: ColorSpec, b: ButtonState, e: Event, t: Target)
    ensures var r := Step(p, masterColor, b, e);
      && (HoverBound(b, t) ==> HoverBound(r, t))
      && (ClickBound(b, t) ==> ClickBound(r, t))
  {
    StepKeepsBindings(p, masterColor, b, e);
  }

  /** What holds of every button between events: the inner radius agrees
      with the corner radius and border; the canvas is the one the current
      configuration draws, with the fill layer in one of the button's three
      colours (the drawn colour, the hover colour or the plain foreground
      colour); a stored image always has a label. */
  predicate WellFormed(p: Palette, b: ButtonState)
  {
    var c := b.cfg;
    var k := LookOf(c);
    && c.innerCornerRadius == InnerCornerRadius(c.cornerRadius, c.borderWidth)
    && (|| b.canvas == PaintedCanvas(p, k, FillColor(p, k))
        || b.canvas == PaintedCanvas(p, k, p.resolve(c.hoverColor, c.mode))
        || b.canvas == PaintedCanvas(p, k, p.resolve(c.fgColor, c.mode)))
    && (c.image.Some? ==> b.imageLabel.Some?)
  }

  /** A well-formed button shows the shapes its size and radii give, the
      border in the border colour and the fill in a single colour. */
  lemma WellFormedCanvas(p: Palette, b: ButtonState)
    requires WellFormed(p, b)
    ensures var c := b.cfg;
      && SameOutline(b.canvas.fillParts, FillShapes(c.width, c.height, c.borderWidth, c.cornerRadius, c.innerCornerRadius))
      && SameOutline(b.canvas.borderParts, BorderShapes(c.width, c.height, c.borderWidth, c.cornerRadius))
      && FilledWith(b.canvas.borderParts, p.resolve(c.borderColor, c.mode))
      && Uniform(b.canvas.fillParts)
  {
  }

  lemma InitWellFormed(p: Palette, o: Options, mode: Mode, masterColor: ColorSpec)
    ensures WellFormed(p, Init(p, o, mode, masterColor))
  {
  }

  /** Drawing a button whose inner radius is consistent makes it well formed. */
  lemma DrawWellFormed(p: Palette, b: ButtonState)
    requires b.cfg.innerCornerRadius == InnerCornerRadius(b.cfg.cornerRadius, b.cfg.borderWidth)
    requires b.cfg.image.Some? ==> b.imageLabel.Some?
    ensures WellFormed(p, Draw(p, b))
  {
  }

  /** Repainting keeps a well-formed button well formed. */
  lemma PaintWellFormed(p: Palette, b: ButtonState, fill: Color)
    requires WellFormed(p, b)
    requires fill == p.resolve(b.cfg.hoverColor, b.cfg.mode) || fill == p.resolve(b.cfg.fgColor, b.cfg.mode)
    ensures WellFormed(p, Paint(b, fill))
  {
  }

  lemma SetTextWellFormed(p: Palette, b: ButtonState, text: Option<string>)
    requires WellFormed(p, b)
    ensures WellFormed(p, SetText(b, text))
  {
  }

  lemma SetImageWellFormed(p: Palette, b: ButtonState, image: Option<ImageRef>)
    requires WellFormed(p, b)
    ensures WellFormed(p, SetImage(b, image))
  {
  }

  lemma SetStateWellFormed(p: Palette, b: ButtonState, state: string)
    requires WellFormed(p, b)
    ensures WellFormed(p, SetState(p, b, state))
  {
  }

  lemma ConfigureTextWellFormed(p: Palette, b: ButtonState, text: Change<Option<string>>)
    requires WellFormed(p, b)
    ensures WellFormed(p, ConfigureText(b, text))
  {
  }

  lemma ConfigureStateWellFormed(p: Palette, b: ButtonState, state: Change<string>)
    requires WellFormed(p, b)
    ensures WellFormed(p, ConfigureState(p, b, state))
  {
  }

  lemma ConfigureImageWellFormed(p: Palette, b: ButtonState, image: Change<Option<ImageRef>>)
    requires WellFormed(p, b)
    ensures WellFormed(p, ConfigureImage(b, image))
  {
  }

  /** `configure` keeps a well-formed button well formed: each setter does,
      and the colour stage either redraws or changes no colour. */
  lemma ConfigureWellFormed(p: Palette, masterColor: ColorSpec, b: ButtonState, a: ConfigureArgs)
    requires WellFormed(p, b)
    ensures WellFormed(p, Configure(p, b, masterColor, a))
  {
    var t := ConfigureText(b, a.text);
    ConfigureTextWellFormed(p, b, a.text);
    var m := ConfigureState(p, t, a.state);
    ConfigureStateWellFormed(p, t, a.state);
    var s := ConfigureSetters(p, b, a);
    ConfigureImageWellFormed(p, m, a.image);
    assert WellFormed(p, s);
    var r := Configure(p, b, masterColor, a);
    if ChangesColor(a) {
      DrawWellFormed(p, s.(cfg := r.cfg));
    }
  }

  lemma PointerStepWellFormed(p: Palette, masterColor: ColorSpec, b: ButtonState, e: Event)
    requires WellFormed(p, b) && IsPointerEvent(e)
    ensures WellFormed(p, Step(p, masterColor, b, e))
  {
    if e.PointerEnter? && HoverBound(b, e.target) && b.cfg.hover {
      PaintWellFormed(p, b, p.resolve(b.cfg.hoverColor, b.cfg.mode));
    } else if e.PointerLeave? && HoverBound(b, e.target) && b.cfg.hover {
      PaintWellFormed(p, b, p.resolve(b.cfg.fgColor, b.cfg.mode));
    } else if e.PointerClick? && ClickBound(b, e.target) && Clickable(b.cfg) && b.cfg.hover {
      PaintWellFormed(p, b.(invocations := b.invocations + 1), p.resolve(b.cfg.fgColor, b.cfg.mode));
    }
  }

  lemma UpdateDimensionsWellFormed(p: Palette, b: ButtonState, width: real, height: real)
    requires WellFormed(p, b)
    ensures WellFormed(p, UpdateDimensions(p, b, width, height))
  {
  }

  lemma SetAppearanceModeWellFormed(p: Palette, b: ButtonState, modeString: string)
    requires WellFormed(p, b)
    ensures WellFormed(p, SetAppearanceMode(p, b, modeString))
  {
  }

  lemma CallStepWellFormed(p: Palette, masterColor: ColorSpec, b: ButtonState, e: Event)
    requires WellFormed(p, b) && !IsPointerEvent(e)
    ensures WellFormed(p, Step(p, masterColor, b, e))
  {
    match e
    case Resize(w, h) =>
      assert Step(p, masterColor, b, e) == UpdateDimensions(p, b, w, h);
      UpdateDimensionsWellFormed(p, b, w, h);
    case AppearanceChange(s) =>
      assert Step(p, masterColor, b, e) == SetAppearanceMode(p, b, s);
      SetAppearanceModeWellFormed(p, b, s);
    case ConfigureCall(a) =>
      assert Step(p, masterColor, b, e) == Configure(p, b, masterColor, a);
      ConfigureWellFormed(p, masterColor, b, a);
    case SetStateCall(s) =>
      assert Step(p, masterColor, b, e) == SetState(p, b, s);
      SetStateWellFormed(p, b, s);
    case SetTextCall(t) =>
      assert Step(p, masterColor, b, e) == SetText(b, t);
      SetTextWellFormed(p, b, t);
    case SetImageCall(i) =>
      assert Step(p, masterColor, b, e) == SetImage(b, i);
      SetImageWellFormed(p, b, i);
  }

  /** Every event keeps a well-formed button well formed. */
  lemma StepPreservesWellFormed(p: Palette, masterColor: ColorSpec, b: ButtonState, e: Event)
    requires WellFormed(p, b)
    ensures WellFormed(p, Step(p, masterColor, b, e))
  {
    if IsPointerEvent(e) {
      PointerStepWellFormed(p, masterColor, b, e);
    } else {
      CallStepWellFormed(p, masterColor, b, e);
    }
  }
}

=== FILE: geometry.dfy ===
/** The canvas geometry of the button: corner-radius normalisation and the
    shapes `draw` creates for the border layer and the fill layer. All
    coordinates are `real` because the source halves widths and heights. */
module Geometry {
  import opened Colors

  datatype Kind = Oval | Rectangle

  /** A bounding box (x0, y0) - (x1, y1) as the canvas takes it. */
  datatype Box = Box(x0: real, y0: real, x1: real, y1: real)

  /** One canvas item: its kind, bounding box and fill colour. */
  datatype Shape = Shape(kind: Kind, box: Box, fill: Color)

  /** A shape as `create_oval`/`create_rectangle` return it, not yet filled. */
  function Created(kind: Kind, box: Box): (s: Shape)
    ensures s.kind == kind && s.box == box && s.fill == NoFill
  {
    Shape(kind, box, NoFill)
  }

  /** The corner radius `__init__` keeps: the height is checked first, then
      the width, and only one of the two halves is applied. */
  function ClampCornerRadius(requested: real, width: real, height: real): (r: real)
    ensures 2.0 * r <= height
    ensures r <= requested
    ensures r == requested <==> 2.0 * requested <= height && 2.0 * requested <= width
    ensures 2.0 * requested <= height || height <= width ==> 2.0 * r <= width
    ensures 2.0 * requested > height ==> 2.0 * r == height
    ensures 2.0 * requested <= height && 2.0 * requested > width ==> 2.0 * r == width
  {
    if requested * 2.0 > height then height / 2.0
    else if requested * 2.0 > width then width / 2.0
    else requested
  }

  /** The width is not bounded when the height clamp fires on a button that
      is taller than it is wide. */
  lemma ClampMayExceedWidth()
    ensures ClampCornerRadius(30.0, 10.0, 40.0) == 20.0
    ensures 2.0 * ClampCornerRadius(30.0, 10.0, 40.0) > 10.0
  {
  }

  /** Clamping twice can shrink the radius again, so the clamp is not
      idempotent; it is idempotent once the width is respected. */
  lemma ClampIdempotentWhenWidthRespected(requested: real, width: real, height: real)
    ensures var r := ClampCornerRadius(requested, width, height);
      2.0 * r <= width ==> ClampCornerRadius(r, width, height) == r
    ensures ClampCornerRadius(ClampCornerRadius(30.0, 10.0, 40.0), 10.0, 40.0) == 5.0
  {
  }

  /** The radius of the fill layer's corners inside a border. */
  function InnerCornerRadius(cornerRadius: real, borderWidth: real): (r: real)
    ensures 0.0 <= r
    ensures r >= cornerRadius - borderWidth
    ensures r == 0.0 || r == cornerRadius - borderWidth
    ensures borderWidth > cornerRadius ==> r == 0.0
    ensures 0.0 <= borderWidth && 0.0 <= cornerRadius ==> r <= cornerRadius
  {
    if cornerRadius >= borderWidth then cornerRadius - borderWidth else 0.0
  }

  /** The border layer of one `draw`: when the corners are rounded, four
      ovals of diameter twice the corner radius in the four corners of the
      button (top left, top right, bottom left, bottom right), then a
      full-width and a full-height rectangle inset by the corner radius.
      There is no border layer without a border. The source does not reach
      this layer when the corners are rounded (see `BorderDrawAsWritten`);
      this is the layer its corner boxes describe. */
  function BorderShapes(width: real, height: real, borderWidth: real, cornerRadius: real): (parts: seq<Shape>)
    ensures borderWidth <= 0.0 ==> parts == []
    ensures borderWidth > 0.0 ==> |parts| == if cornerRadius > 0.0 then 6 else 2
    ensures forall i :: 0 <= i < |parts| - 2 ==> parts[i].kind == Oval
    ensures borderWidth > 0.0 ==> parts[|parts| - 2].kind == parts[|parts| - 1].kind == Rectangle
    ensures forall s :: s in parts ==> s.fill == NoFill
  {
    if borderWidth > 0.0 then
      var d := 2.0 * cornerRadius;
      var ovals := if cornerRadius > 0.0 then
          [Created(Oval, Box(0.0, 0.0, d, d)),
           Created(Oval, Box(width - d, 0.0, width, d)),
           Created(Oval, Box(0.0, height - d, d, height)),
           Created(Oval, Box(width - d, height - d, width, height))]
        else [];
      ovals + [Created(Rectangle, Box(0.0, cornerRadius, width, height - cornerRadius)),
               Created(Rectangle, Box(cornerRadius, 0.0, width - cornerRadius, height))]
    else []
  }

  /** What the border step of `draw` does as written: `Drawn` with the layer
      it leaves, or `Raised` with the shapes created before it raises. */
  datatype BorderOutcome = Drawn(parts: seq<Shape>) | Raised(created: seq<Shape>)

  /** The border step of `draw` as written. With rounded corners it creates
      three ovals at (0, 0, 0, 0) and then passes a bare coordinate tuple to
      `itemconfig`; tkinter's option merging takes each element of that tuple
      for a mapping of options, and the integer 0 is not one, so the call
      raises and `draw` ends there. Otherwise it draws the rectangles. */
  function BorderDrawAsWritten(width: real, height: real, borderWidth: real, cornerRadius: real): (r: BorderOutcome)
    ensures r.Raised? <==> borderWidth > 0.0 && cornerRadius > 0.0
    ensures r.Raised? ==>
      |r.created| == 3 && forall s :: s in r.created ==> s == Created(Oval, Box(0.0, 0.0, 0.0, 0.0))
    ensures r.Drawn? ==> r.parts == BorderShapes(width, height, borderWidth, cornerRadius)
  {
    if borderWidth > 0.0 && cornerRadius > 0.0 then
      Raised([Created(Oval, Box(0.0, 0.0, 0.0, 0.0)),
              Created(Oval, Box(0.0, 0.0, 0.0, 0.0)),
              Created(Oval, Box(0.0, 0.0, 0.0, 0.0))])
    else if borderWidth > 0.0 then
      Drawn([Created(Rectangle, Box(0.0, cornerRadius, width, height - cornerRadius)),
             Created(Rectangle, Box(cornerRadius, 0.0, width - cornerRadius, height))])
    else
      Drawn([])
  }

  /** A button with the default size and corner radius and a border of
      width 2: as written `draw` raises after three unplaced ovals, whereas
      the intended layer has its top-left oval in the 16x16 corner box. */
  lemma BorderedRoundedDrawRaises()
    ensures BorderDrawAsWritten(120.0, 32.0, 2.0, 8.0).Raised?
    ensures |BorderDrawAsWritten(120.0, 32.0, 2.0, 8.0).created| == 3
    ensures BorderShapes(120.0, 32.0, 2.0, 8.0)[0] == Created(Oval, Box(0.0, 0.0, 16.0, 16.0))
  {
  }

  /** The fill layer of one `draw`: four corner ovals of diameter twice the
      inner radius inside the border (only when the corners are rounded),
      then two overlapping rectangles forming a plus. */
  function FillShapes(width: real, height: real, borderWidth: real, cornerRadius: real, inner: real): (parts: seq<Shape>)
    ensures |parts| == if cornerRadius > 0.0 then 6 else 2
    ensures forall i :: 0 <= i < |parts| - 2 ==> parts[i].kind == Oval
    ensures parts[|parts| - 2].kind == parts[|parts| - 1].kind == Rectangle
    ensures forall s :: s in parts ==> s.fill == NoFill
  {
    var d := 2.0 * inner;
    var ovals := if cornerRadius > 0.0 then
        [Created(Oval, Box(borderWidth, borderWidth, borderWidth + d, borderWidth + d)),
         Created(Oval, Box(width - borderWidth - d, borderWidth, width - borderWidth, borderWidth + d)),
         Created(Oval, Box(borderWidth, height - borderWidth - d, borderWidth + d, height - borderWidth)),
         Created(Oval, Box(width - borderWidth - d, height - borderWidth - d, width - borderWidth, height - borderWidth))]
      else [];
    ovals + [Created(Rectangle, Box(borderWidth + inner, borderWidth, width - borderWidth - inner, height - borderWidth)),
             Created(Rectangle, Box(borderWidth, borderWidth + inner, width - borderWidth, height - inner - borderWidth))]
  }

  /** The `for part in parts: itemconfig(part, fill=c)` loop: every shape
      keeps its kind and box and takes the colour `c`. */
  function Recolor(parts: seq<Shape>, c: Color): (r: seq<Shape>)
    ensures |r| == |parts|
    ensures forall i :: 0 <= i < |r| ==> r[i] == parts[i].(fill := c)
  {
    if parts == [] then [] else [parts[0].(fill := c)] + Recolor(parts[1..], c)
  }

  /** Two shape lists that differ at most in their colours. */
  predicate SameOutline(xs: seq<Shape>, ys: seq<Shape>)
  {
    |xs| == |ys| && forall i :: 0 <= i < |xs| ==> xs[i].kind == ys[i].kind && xs[i].box == ys[i].box
  }

  /** All shapes of a list have the colour `c`. */
  predicate FilledWith(parts: seq<Shape>, c: Color)
  {
    forall s :: s in parts ==> s.fill == c
  }

  /** All shapes of a list share one colour. */
  predicate Uniform(parts: seq<Shape>)
  {
    parts == [] || FilledWith(parts, parts[0].fill)
  }

  /** Recolouring twice is recolouring with the second colour. */
  lemma RecolorTwice(parts: seq<Shape>, c1: Color, c2: Color)
    ensures Recolor(Recolor(parts, c1), c2) == Recolor(parts, c2)
  {
  }

  lemma RecolorUniform(parts: seq<Shape>, c: Color)
    ensures SameOutline(Recolor(parts, c), parts)
    ensures FilledWith(Recolor(parts, c), c) && Uniform(Recolor(parts, c))
  {
  }

  function MirrorX(b: Box, width: real): Box
  {
    Box(width - b.x1, b.y0, width - b.x0, b.y1)
  }

  function MirrorY(b: Box, height: real): Box
  {
    Box(b.x0, height - b.y1, b.x1, height - b.y0)
  }

  /** The position of a fill part's left-to-right mirror image: the corner
      ovals swap in pairs (0 and 1, 2 and 3), the rectangles stay. */
  function MirrorXIndex(i: nat, n: nat): nat
  {
    if i + 2 >= n then i else if i % 2 == 0 then i + 1 else i - 1
  }

  /** The position of a fill part's top-to-bottom mirror image: the corner
      ovals swap in pairs (0 and 2, 1 and 3), the rectangles stay. */
  function MirrorYIndex(i: nat, n: nat): nat
  {
    if i + 2 >= n then i else (i + 2) % 4
  }

  /** The fill layer is its own mirror image left to right. */
  lemma {:induction false} FillShapesSymmetricX(width: real, height: real, borderWidth: real, cornerRadius: real, inner: real)
    ensures var parts := FillShapes(width, height, borderWidth, cornerRadius, inner);
      forall i :: 0 <= i < |parts| ==>
        MirrorXIndex(i, |parts|) < |parts| && parts[MirrorXIndex(i, |parts|)] == parts[i].(box := MirrorX(parts[i].box, width))
  {
    var parts := FillShapes(width, height, borderWidth, cornerRadius, inner);
    var n := |parts|;
    forall i | 0 <= i < n
      ensures MirrorXIndex(i, n) < n && parts[MirrorXIndex(i, n)] == parts[i].(box := MirrorX(parts[i].box, width))
    {
      if i + 2 >= n {
        assert parts[i].box == MirrorX(parts[i].box, width);
      }
    }
  }

  /** The fill layer is its own mirror image top to bottom. */
  lemma {:induction false} FillShapesSymmetricY(width: real, height: real, borderWidth: real, cornerRadius: real, inner: real)
    ensures var parts := FillShapes(width, height, borderWidth, cornerRadius, inner);
      forall i :: 0 <= i < |parts| ==>
        MirrorYIndex(i, |parts|) < |parts| && parts[MirrorYIndex(i, |parts|)] == parts[i].(box := MirrorY(parts[i].box, height))
  {
    var parts := FillShapes(width, height, borderWidth, cornerRadius, inner);
    var n := |parts|;
    forall i | 0 <= i < n
      ensures MirrorYIndex(i, n) < n && parts[MirrorYIndex(i, n)] == parts[i].(box := MirrorY(parts[i].box, height))
    {
      if i + 2 >= n {
        assert parts[i].box == MirrorY(parts[i].box, height);
      }
    }
  }

  /** Each fill oval is a square of side twice the inner radius with one
      corner on the matching corner of the area inside the border; the
      rectangles span that area, one inset horizontally and one vertically
      by the inner radius. */
  lemma FillShapesPlacement(width: real, height: real, borderWidth: real, cornerRadius: real, inner: real)
    ensures var parts := FillShapes(width, height, borderWidth, cornerRadius, inner);
      var n := |parts|;
      && (forall i :: 0 <= i < n - 2 ==>
            parts[i].box.x1 - parts[i].box.x0 == 2.0 * inner == parts[i].box.y1 - parts[i].box.y0)
      && (cornerRadius > 0.0 ==>
            && parts[0].box.x0 == borderWidth && parts[0].box.y0 == borderWidth
            && parts[1].box.x1 == width - borderWidth && parts[1].box.y0 == borderWidth
            && parts[2].box.x0 == borderWidth && parts[2].box.y1 == height - borderWidth
            && parts[3].box.x1 == width - borderWidth && parts[3].box.y1 == height - borderWidth)
      && parts[n - 2].box == Box(borderWidth + inner, borderWidth, width - borderWidth - inner, height - borderWidth)
      && parts[n - 1].box == Box(borderWidth, borderWidth + inner, width - borderWidth, height - borderWidth - inner)
  {
  }

  /** `inner` lies within `outer`. */
  predicate Inside(inner: Box, outer: Box)
  {
    outer.x0 <= inner.x0 <= inner.x1 <= outer.x1 && outer.y0 <= inner.y0 <= inner.y1 <= outer.y1
  }

  /** With a radius that fits the button, the whole fill layer stays inside
      the border. */
  lemma FillInsideBorder(width: real, height: real, borderWidth: real, cornerRadius: real)
    requires 0.0 <= borderWidth && 0.0 <= cornerRadius
    requires 2.0 * cornerRadius <= width && 2.0 * cornerRadius <= height
    requires 2.0 * borderWidth <= width && 2.0 * borderWidth <= height
    ensures var inner := InnerCornerRadius(cornerRadius, borderWidth);
      forall s :: s in FillShapes(width, height, borderWidth, cornerRadius, inner) ==>
        Inside(s.box, Box(borderWidth, borderWidth, width - borderWidth, height - borderWidth))
  {
  }

  /** `b` shrunk by `d` on every side. */
  function Inset(b: Box, d: real): Box
  {
    Box(b.x0 + d, b.y0 + d, b.x1 - d, b.y1 - d)
  }

  /** With rounded corners each border oval is a square of side twice the
      corner radius lying in its own corner of the button, and the two
      rectangles span the button, one inset vertically and one
      horizontally by the corner radius. */
  lemma BorderShapesPlacement(width: real, height: real, borderWidth: real, cornerRadius: real)
    ensures var parts := BorderShapes(width, height, borderWidth, cornerRadius);
      var n := |parts|;
      && (forall i :: 0 <= i < n - 2 ==>
            parts[i].box.x1 - parts[i].box.x0 == 2.0 * cornerRadius == parts[i].box.y1 - parts[i].box.y0)
      && (borderWidth > 0.0 && cornerRadius > 0.0 ==>
            && parts[0].box.x0 == 0.0 && parts[0].box.y0 == 0.0
            && parts[1].box.x1 == width && parts[1].box.y0 == 0.0
            && parts[2].box.x0 == 0.0 && parts[2].box.y1 == height
            && parts[3].box.x1 == width && parts[3].box.y1 == height)
      && (borderWidth > 0.0 ==>
            && parts[n - 2].box == Box(0.0, cornerRadius, width, height - cornerRadius)
            && parts[n - 1].box == Box(cornerRadius, 0.0, width - cornerRadius, height))
  {
  }

  /** With a border no wider than the corner radius, each fill oval is the
      border oval of its corner shrunk by the border width on every side
      (same centre), so at the corners the border shows as a ring of even
      width. */
  lemma BorderRingAroundFill(width: real, height: real, borderWidth: real, cornerRadius: real)
    requires 0.0 < borderWidth <= cornerRadius
    ensures var border := BorderShapes(width, height, borderWidth, cornerRadius);
      var fill := FillShapes(width, height, borderWidth, cornerRadius, InnerCornerRadius(cornerRadius, borderWidth));
      |border| == |fill| == 6 &&
      forall i :: 0 <= i < 4 ==> fill[i].box == Inset(border[i].box, borderWidth)
  {
  }
}

=== FILE: layout.dfy ===
/** Placement of the text and image labels in the button's 2x2 grid. */
module Layout {
  import opened Wrappers

  /** The arguments of one `grid` call; options the call leaves out take
      Tk's defaults (span 1, no padding, no sticky side). */
  datatype Placement = Placement(row: int, column: int, rowSpan: int, columnSpan: int, padX: real, sticky: string)

  /** Where `draw` grids the image label and the text label; `None` means
      that label is not gridded by this draw. */
  datatype LabelGrid = LabelGrid(image: Option<Placement>, text: Option<Placement>)

  /** `p` covers only cells of the 2x2 grid. */
  predicate InGrid(p: Placement)
  {
    0 <= p.row && 1 <= p.rowSpan && p.row + p.rowSpan <= 2
    && 0 <= p.column && 1 <= p.columnSpan && p.column + p.columnSpan <= 2
  }

  /** `p` fills the whole 2x2 grid. */
  predicate WholeGrid(p: Placement)
  {
    p.row == 0 && p.column == 0 && p.rowSpan == 2 && p.columnSpan == 2
  }

  /** The two placements share no cell. */
  predicate Disjoint(p: Placement, q: Placement)
  {
    p.row + p.rowSpan <= q.row || q.row + q.rowSpan <= p.row
    || p.column + p.columnSpan <= q.column || q.column + q.columnSpan <= p.column
  }

  /** The sticky side of `p` that faces `q`. */
  function Facing(p: Placement, q: Placement): string
  {
    if q.column >= p.column + p.columnSpan then "e"
    else if q.column + q.columnSpan <= p.column then "w"
    else if q.row >= p.row + p.rowSpan then "s"
    else "n"
  }

  predicate IsCompound(compound: string)
  {
    compound == "left" || compound == "right" || compound == "top" || compound == "bottom"
  }

  /** The grid layout `draw` applies for the labels that exist. */
  function Arrange(hasImage: bool, hasText: bool, compound: string, cornerRadius: real): (g: LabelGrid)
    ensures g.image.Some? ==> hasImage && InGrid(g.image.value)
    ensures g.text.Some? ==> hasText && InGrid(g.text.value)
    ensures hasImage && !hasText ==>
      g.image.Some? && WholeGrid(g.image.value) && g.image.value.padX == 0.0 && g.image.value.sticky == ""
    ensures hasText && !hasImage ==>
      g.text.Some? && WholeGrid(g.text.value) && g.text.value.padX == cornerRadius && g.text.value.sticky == ""
    ensures hasImage && hasText ==> (g.image.Some? <==> IsCompound(compound)) && (g.text.Some? <==> IsCompound(compound))
    ensures g.image.Some? && g.text.Some? ==>
      && Disjoint(g.image.value, g.text.value)
      && g.image.value.sticky == Facing(g.image.value, g.text.value)
      && g.text.value.sticky == Facing(g.text.value, g.image.value)
      && g.image.value.padX == g.text.value.padX == cornerRadius
    ensures g.image.Some? && g.text.Some? ==>
      && (compound == "left" <==> g.image.value.column < g.text.value.column)
      && (compound == "right" <==> g.image.value.column > g.text.value.column)
      && (compound == "top" <==> g.image.value.row < g.text.value.row)
      && (compound == "bottom" <==> g.image.value.row > g.text.value.row)
    ensures g.image.Some? && g.text.Some? && (compound == "left" || compound == "right") ==>
      && g.image.value.row == g.text.value.row == 0
      && g.image.value.rowSpan == g.text.value.rowSpan == 2
    ensures g.image.Some? && g.text.Some? && (compound == "top" || compound == "bottom") ==>
      && g.image.value.column == g.text.value.column == 0
      && g.image.value.columnSpan == g.text.value.columnSpan == 2
  {
    if hasImage && !hasText then
      LabelGrid(Some(Placement(0, 0, 2, 2, 0.0, "")), None)
    else if !hasImage && hasText then
      LabelGrid(None, Some(Placement(0, 0, 2, 2, cornerRadius, "")))
    else if hasImage && hasText then
      if compound == "left" then
        LabelGrid(Some(Placement(0, 0, 2, 1, cornerRadius, "e")), Some(Placement(0, 1, 2, 1, cornerRadius, "w")))
      else if compound == "top" then
        LabelGrid(Some(Placement(0, 0, 1, 2, cornerRadius, "s")), Some(Placement(1, 0, 1, 2, cornerRadius, "n")))
      else if compound == "right" then
        LabelGrid(Some(Placement(0, 1, 2, 1, cornerRadius, "w")), Some(Placement(0, 0, 2, 1, cornerRadius, "e")))
      else if compound == "bottom" then
        LabelGrid(Some(Placement(1, 0, 1, 2, cornerRadius, "n")), Some(Placement(0, 0, 1, 2, cornerRadius, "s")))
      else
        LabelGrid(None, None)
    else
      LabelGrid(None, None)
  }

  /** `p` reflected left-to-right in the 2x2 grid. */
  function FlipColumns(p: Placement): Placement
  {
    p.(column := 2 - p.column - p.columnSpan,
       sticky := if p.sticky == "e" then "w" else if p.sticky == "w" then "e" else p.sticky)
  }

  /** `p` reflected top-to-bottom in the 2x2 grid. */
  function FlipRows(p: Placement): Placement
  {
    p.(row := 2 - p.row - p.rowSpan,
       sticky := if p.sticky == "n" then "s" else if p.sticky == "s" then "n" else p.sticky)
  }

  /** "right" is the mirror image of "left" and "bottom" that of "top". */
  lemma ArrangeMirrored(cornerRadius: real)
    ensures var l := Arrange(true, true, "left", cornerRadius);
      var r := Arrange(true, true, "right", cornerRadius);
      r.image == Some(FlipColumns(l.image.value)) && r.text == Some(FlipColumns(l.text.value))
    ensures var t := Arrange(true, true, "top", cornerRadius);
      var b := Arrange(true, true, "bottom", cornerRadius);
      b.image == Some(FlipRows(t.image.value)) && b.text == Some(FlipRows(t.text.value))
  {
  }
}

=== FILE: wrappers.dfy ===
/** Small optional-value datatypes shared by the button model. */
module Wrappers {

  /** A value that may be absent; `None` stands for Python's `None`. */
  datatype Option<+T> = None | Some(value: T)

  /** One keyword argument of `configure`: either not passed (`Keep`)
      or passed with a value (`Set`). */
  datatype Change<+T> = Keep | Set(value: T)
}
